=== FILE: README.md ===
# Library catalogue: a Dafny model

This project models two versions of the same in-memory library catalogue.

1. **The pointer exercise** (`library_manager_pointers.cpp`). A `Library` is a growable array of book slots with an explicit `count` and `capacity`. Books carry NUL-terminated C strings.
   - `CStrings` models the C strings: `strlen`, `copy_cstr` and `cstr_equal`.
   - `PointerLibrary` models `create_book`, `init_library`, `destroy_library`, `ensure_capacity`, `add_book`, `find_by_title`, `remove_by_title` and `swap_books`. It is a Dafny class holding an array, and the grow, copy, search and shift loops carry their invariants.
   - `AddOwnership` records who releases a book that `add_book` rejects.
2. **The object-oriented refactor** (`ood-design-refactor-library-management/include`). These are value records with managers over them, modelled as immutable datatypes and pure functions.
   - `Books` and `Members` model the records.
   - `BookManager` models the catalogue. Removal matches on title and author, while update and find match on the title alone.
   - `MemberManager` models the registry, which is keyed on the member id.
   - `BorrowService` models the ledger: a map from member id to the ordered list of borrowed books.
   - `LibraryManager` models the facade. Its one cross-component rule is that removing a member clears that member's ledger entry.
   - `Seqs` holds the two shared algorithms. `Filter` is the erase-remove idiom and `FirstIndex` is `std::find_if`.

Allocation failure is an explicit boolean parameter, so each contract covers both outcomes. A null pointer is `None` or `Null`. A found element is reported as its index, not its address.

Two points about what the code does:
- `RemoveBook`, `RemoveMember` and `ReturnBook` use `std::remove_if` followed by `erase`, so they erase **every** match, not just the first. `UpdateBook`, `UpdateMember` and the finds use `std::find_if` and act on the first match only.
- On a growth failure, `add_book` releases the book (library_manager_pointers.cpp:215). The header comment at line 74 says a failed add does not take ownership, and `handle_add`'s comment at line 301 says the caller still owns the book. See Findings.

## Model

| member | source | states |
|---|---|---|
| `CStrings.Strlen` | pointers/TaskSpecifications/library_manager_pointers.cpp:104 | the length is the position of the first NUL: that character is NUL and none before it is |
| `CStrings.CopyCStr` | pointers/TaskSpecifications/library_manager_pointers.cpp:102-110 | a null source or a failed allocation gives null; otherwise the copy has the source's length, its characters and a terminating NUL, and it is `cstr_equal` to the source |
| `CStrings.CStrEqual` | pointers/TaskSpecifications/library_manager_pointers.cpp:148-156 | true exactly when both are null, or both are non-null with identical text |
| `CStrings.SameCStrSymmetric` | pointers/TaskSpecifications/library_manager_pointers.cpp:148-156 | string equality is symmetric |
| `PointerLibrary.CreateBook` | pointers/TaskSpecifications/library_manager_pointers.cpp:112-127 | a book exists exactly when every allocation succeeds and neither string is null; it then has the given title text, author text and year |
| `PointerLibrary.InitialCapacity` | pointers/TaskSpecifications/library_manager_pointers.cpp:168 | a positive request is kept, and anything else becomes 4 |
| `PointerLibrary.InitLibrary` | pointers/TaskSpecifications/library_manager_pointers.cpp:165-176 | the library and its slot array are newly allocated; count is 0 and every slot is null; capacity is the initial capacity, or 0 when the slot array cannot be allocated |
| `PointerLibrary.DestroyLibrary` | pointers/TaskSpecifications/library_manager_pointers.cpp:178-187 | every book in `[0, count)` is released in order; count and capacity become 0, and the library is left with a new empty slot array |
| `PointerLibrary.GrownCapacity` | pointers/TaskSpecifications/library_manager_pointers.cpp:197 | the new capacity is at least double the old one and at least the minimum, and equals one of them |
| `PointerLibrary.EnsureCapacity` | pointers/TaskSpecifications/library_manager_pointers.cpp:189-208 | with enough capacity it succeeds and changes nothing; when allocation fails it reports failure and changes nothing; otherwise capacity becomes `max(2*capacity, min)`, count is kept and slots `[0, count)` keep their order |
| `PointerLibrary.AddBook` | pointers/TaskSpecifications/library_manager_pointers.cpp:210-220 | a null library or book is rejected; on success the book sits at the old count, count grows by one and earlier slots are unchanged; on growth failure count and slots are unchanged and the book is released; the slot array is kept or replaced by a newly allocated one, and capacity becomes `max(2*capacity, count+1)` exactly when a book arrives at a full library and growth succeeds, and is unchanged otherwise |
| `PointerLibrary.FindByTitle` | pointers/TaskSpecifications/library_manager_pointers.cpp:222-232 | returns the first index in `[0, count)` whose title is `cstr_equal` to the query; none when nothing matches or the library or query is null |
| `PointerLibrary.RemoveByTitle` | pointers/TaskSpecifications/library_manager_pointers.cpp:234-250 | with no match it returns false, releases nothing and changes nothing; otherwise it releases only the first match, decrements count, keeps the other books in order without a gap, and nulls the vacated last slot |
| `PointerLibrary.ShiftLeft` | pointers/TaskSpecifications/library_manager_pointers.cpp:241-244 | the books after slot `i` move one slot left in order, count drops by one and the vacated last slot becomes null |
| `PointerLibrary.ShiftedSlices` | pointers/TaskSpecifications/library_manager_pointers.cpp:241-243 | the slot-by-slot effect of the shift loop equals the prefix before `i` followed by the books after `i` |
| `PointerLibrary.MenuSession` | pointers/TaskSpecifications/library_manager_pointers.cpp:326-361 | a `menu_loop` session over the model: on a library of capacity 2, two adds succeed, a swap exchanges them, a third add fails and is released by `add_book` when the array cannot grow, removing the swapped-in first book by title releases it, and destroying the library releases the one book left |
| `PointerLibrary.SwapBooks` | pointers/TaskSpecifications/library_manager_pointers.cpp:252-259 | with both indices in `[0, count)` the two slots are exchanged; otherwise the slots are unchanged |
| `AddOwnership.AddBookResult` | pointers/TaskSpecifications/library_manager_pointers.cpp:210-220 | the book is added exactly when the library and book are present and growth succeeds; it is released by `add_book` exactly when growth fails for a present book |
| `AddOwnership.AddBookResultIntended` | pointers/TaskSpecifications/library_manager_pointers.cpp:74-75 | same acceptance as the code, but a rejected book is never released by `add_book` |
| `AddOwnership.ReleasesOnAddPath` | pointers/TaskSpecifications/library_manager_pointers.cpp:299-302 | `handle_add` releases the book whenever `add_book` returns false, so a rejected book is released at least once and, if `add_book` released it too, twice; an added book is not released on the add path |
| `AddOwnership.GrowthFailureReleasesTwice` | pointers/TaskSpecifications/library_manager_pointers.cpp:299-302 | as written, a growth failure makes the add path release the same book twice |
| `AddOwnership.IntendedReleasesOnce` | pointers/TaskSpecifications/library_manager_pointers.cpp:74-75 | under the documented contract, a rejected book is released exactly once and an added one not at all on the add path |
| `Seqs.Filter` | ood-design-refactor-library-management/include/BookManager.hpp:17-19 | erase-remove keeps exactly the accepted elements, never grows, and changes nothing when every element is accepted |
| `Seqs.FilterConcat` | ood-design-refactor-library-management/include/BookManager.hpp:17-19 | erase-remove distributes over concatenation, so relative order is kept |
| `Seqs.FilterCount` | ood-design-refactor-library-management/include/BookManager.hpp:17-19 | each accepted value keeps its multiplicity, and each rejected value drops to zero |
| `Seqs.FilterIdempotent` | ood-design-refactor-library-management/include/BookManager.hpp:17-19 | erasing twice with the same predicate equals erasing once |
| `Seqs.FirstIndex` | ood-design-refactor-library-management/include/BookManager.hpp:23 | `find_if` gives the first satisfying position, or none exactly when nothing satisfies |
| `Books.DefaultBook` | ood-design-refactor-library-management/include/Data/Book.hpp:6 | the default book has empty title and author |
| `Books.NewBook` | ood-design-refactor-library-management/include/Data/Book.hpp:7 | the constructor stores the given title and author |
| `Books.SetTitle` | ood-design-refactor-library-management/include/Data/Book.hpp:9-10 | after `setTitle(t)` the title reads back as `t` and the author is unchanged |
| `Books.SetAuthor` | ood-design-refactor-library-management/include/Data/Book.hpp:12-13 | after `setAuthor(a)` the author reads back as `a` and the title is unchanged |
| `Books.SameTitleAndAuthorIsEquality` | ood-design-refactor-library-management/include/BookManager.hpp:18 | matching on title and author is the same as equality of the two records |
| `Books.OverwriteBothFields` | ood-design-refactor-library-management/include/BookManager.hpp:25-26 | setting title and then author from `u` yields exactly `u` |
| `Members.DefaultMember` | ood-design-refactor-library-management/include/Data/Member.hpp:6 | the default member has empty name and id |
| `Members.NewMember` | ood-design-refactor-library-management/include/Data/Member.hpp:7 | the constructor stores the given name and id |
| `Members.SetName` | ood-design-refactor-library-management/include/Data/Member.hpp:9-10 | `setName` changes only the name |
| `Members.SetMemberId` | ood-design-refactor-library-management/include/Data/Member.hpp:12-13 | `setMemberId` changes only the id |
| `Members.SameMember` | ood-design-refactor-library-management/include/Data/Member.hpp:16 | `operator==`: two members are equal exactly when their ids are equal |
| `Members.Hash` | ood-design-refactor-library-management/include/Data/Member.hpp:25-28 | `std::hash<Member>`: the string hash of the member id |
| `Members.SameMemberIgnoresName` | ood-design-refactor-library-management/include/Data/Member.hpp:16 | `==` ignores the name: renaming changes no comparison, and any two members with the same id are equal |
| `Members.SameMemberIsEquivalence` | ood-design-refactor-library-management/include/Data/Member.hpp:16 | `==` is reflexive, symmetric and transitive |
| `Members.EqualMembersHashEqually` | ood-design-refactor-library-management/include/Data/Member.hpp:25-28 | equal members hash equally, whatever the string hash |
| `BookManager.EmptyCatalogue` | ood-design-refactor-library-management/include/BookManager.hpp:9 | the default catalogue is empty |
| `BookManager.FromBooks` | ood-design-refactor-library-management/include/BookManager.hpp:10 | the vector constructor holds the given books in the given order |
| `BookManager.AddBook` | ood-design-refactor-library-management/include/BookManager.hpp:12-14 | appends: length grows by one, the prefix is unchanged and the new book is last |
| `BookManager.RemoveBook` | ood-design-refactor-library-management/include/BookManager.hpp:16-20 | every book with equal title and author is gone and every other book keeps its multiplicity; with no match the catalogue is unchanged |
| `BookManager.RemoveBookKeepsOrder` | ood-design-refactor-library-management/include/BookManager.hpp:16-20 | the surviving books keep their relative order |
| `BookManager.RemoveBookIdempotent` | ood-design-refactor-library-management/include/BookManager.hpp:16-20 | removing twice equals removing once |
| `BookManager.FindBook` | ood-design-refactor-library-management/include/BookManager.hpp:30-33 | gives the first book with the title, or none exactly when no book has it |
| `BookManager.UpdateBook` | ood-design-refactor-library-management/include/BookManager.hpp:22-28 | only the first book titled `originalTitle` takes the new title and author; length and all other entries are unchanged; with no match nothing changes |
| `BookManager.FindAfterAdd` | ood-design-refactor-library-management/include/BookManager.hpp:12-33 | after `AddBook(b)`, `FindBook(b.title)` finds a book at or before the new one |
| `MemberManager.EmptyRegistry` | ood-design-refactor-library-management/include/MemberManager.hpp:8 | the default registry is empty |
| `MemberManager.FromMembers` | ood-design-refactor-library-management/include/MemberManager.hpp:9 | the vector constructor holds the given members in the given order |
| `MemberManager.RegisterMember` | ood-design-refactor-library-management/include/MemberManager.hpp:11-13 | appends: length grows by one, the prefix is unchanged and the new member is last |
| `MemberManager.RemoveMember` | ood-design-refactor-library-management/include/MemberManager.hpp:14-18 | every member with the id is gone and every other member keeps its multiplicity; with no match the registry is unchanged |
| `MemberManager.RemoveMemberKeepsOrder` | ood-design-refactor-library-management/include/MemberManager.hpp:14-18 | the surviving members keep their relative order |
| `MemberManager.FindMember` | ood-design-refactor-library-management/include/MemberManager.hpp:28-32 | gives the first member with the id, or none exactly when no member has it |
| `MemberManager.RemoveMemberThenFind` | ood-design-refactor-library-management/include/MemberManager.hpp:14-32 | after removal the id is not found, and removing it again changes nothing |
| `MemberManager.UpdateMember` | ood-design-refactor-library-management/include/MemberManager.hpp:19-26 | only the first member with the id takes the new name and id; length and all other entries are unchanged; with no match nothing changes |
| `BorrowService.EmptyLedger` | ood-design-refactor-library-management/include/BorrowService.hpp:9 | the default ledger has no entries |
| `BorrowService.GetRentedBooks` | ood-design-refactor-library-management/include/BorrowService.hpp:25-29 | gives the member's list, or empty when there is no entry |
| `BorrowService.ViewRentedBooks` | ood-design-refactor-library-management/include/BorrowService.hpp:35-39 | gives the same value as `GetRentedBooks` |
| `BorrowService.BorrowBook` | ood-design-refactor-library-management/include/BorrowService.hpp:11-13 | the member's list, empty if absent, gains the book at its end; the member id becomes a key; other entries are unchanged |
| `BorrowService.ReturnBook` | ood-design-refactor-library-management/include/BorrowService.hpp:15-23 | every book with equal title and author leaves the member's list and the rest keep their multiplicity; the entry stays even when emptied; with no entry nothing changes; other entries are unchanged |
| `BorrowService.ReturnBookKeepsOrder` | ood-design-refactor-library-management/include/BorrowService.hpp:15-23 | on any ledger, returning from a member's list `front + back` leaves the survivors of `front` followed by the survivors of `back`, so the remaining books keep their borrow order |
| `BorrowService.ClearRentedBooks` | ood-design-refactor-library-management/include/BorrowService.hpp:31-33 | the member's entry is erased, so the list reads empty; other entries are unchanged |
| `BorrowService.SameIdSharesEntry` | ood-design-refactor-library-management/include/BorrowService.hpp:43 | members with the same id and different names read and extend one entry |
| `BorrowService.BorrowThenReturn` | ood-design-refactor-library-management/include/BorrowService.hpp:11-23 | borrow then return restores the member's list exactly when the list held no book with that title and author before |
| `LibraryManager.Create` | ood-design-refactor-library-management/include/LibraryManager.hpp:20-25 | books and members are stored in the given order, and the ledger has no entries, so nobody has borrowed anything |
| `LibraryManager.RemoveMemberWithBooks` | ood-design-refactor-library-management/include/LibraryManager.hpp:26-29 | no member with the id remains and the id has no ledger entry; the registry is exactly `RemoveMember` of the id, so other members keep their multiplicity and order; the catalogue and other ledger entries are unchanged |
| `LibraryManager.RemoveMemberWithBooksIdempotent` | ood-design-refactor-library-management/include/LibraryManager.hpp:26-29 | removing twice equals removing once |
| `LibraryManager.RemovalKeepsLedgerAttached` | ood-design-refactor-library-management/include/LibraryManager.hpp:26-29 | if every ledger entry belongs to a registered member, that still holds after a removal |
| `LibraryManager.CatalogueScenario` | ood-design-refactor-library-management/include/LibraryManager.hpp:20-29 | the worked scenario: add Foundation and find it at index 2; removing Dune leaves 1984 and Foundation; after Alice borrows 1984 and is removed, M1 is not found and her list is empty |

## Left out

- The console and I/O code is not modelled, because it contains no checkable logic: `read_line_alloc`, `print_book`, `list_books_ptr_arith`, the `handle_*` functions, `menu_loop` and `main`. The only exception is the release that `handle_add` performs on a failed add, which `AddOwnership.ReleasesOnAddPath` counts.
- `destroy_book` reclaims memory only. Books are values here, so releases appear as the `released` outputs of `PointerLibrary.AddBook`, `PointerLibrary.RemoveByTitle` and `PointerLibrary.DestroyLibrary`.
- Addresses are not modelled. `find_by_title`, `FindBook` and `FindMember` return an index, not a pointer. `cstr_equal`'s pointer-identity shortcut becomes value equality of the buffers, which gives the same result.
- PointerLibrary.InitLibrary: it returns a new library instead of filling a caller's struct, so the null-`lib` guard at line 166 is not modelled. When allocation fails, the source leaves a null array and the model uses a zero-length array; both have capacity 0.
- PointerLibrary.DestroyLibrary: the source leaves `books` pointing at the freed array. The model replaces it with a fresh zero-length array instead. So the model cannot show what happens if the library is used again after `destroy_library`: a second `destroy_library` (line 184), or an `ensure_capacity` reached from a later `add_book` (line 204), would `delete[]` the freed array a second time. The console program never reuses a destroyed library.
- PointerLibrary.EnsureCapacity: the source leaves the slots of a grown array past `count` uninitialised. The model fills them with null, and no contract says anything about them.
- PointerLibrary.GrownCapacity: integers are unbounded, so the signed overflow of `capacity * 2` (undefined for capacities at or above 2^30) and of `count + 1` is not modelled.
- `year` is a C `int` that is only copied, so its width plays no part.
- The concrete `std::hash<std::string>` values are not modelled. The string hash is a parameter of `Members.Hash`.
- `unordered_map` iteration order is not modelled, and neither is which `Member` object (and so which name) is stored as the key. The API cannot observe either.
- Changing a member id through `UpdateMember` orphans that member's ledger entry. The model reproduces this, as the code does; nothing guards against it.
- The default `LibraryManager()` constructor is `LibraryManager.Create([], [])`.

## Findings

| source | as written | input that shows it | evidently intended | confidence | as-written member | corrected member |
|---|---|---|---|---|---|---|
| pointers/TaskSpecifications/library_manager_pointers.cpp:210-220 | on a growth failure `add_book` destroys the book (line 215), and then `handle_add` destroys it again (line 301) | add a book to a full library when the new slot array cannot be allocated | the header comment at line 74 says a failed add does not take ownership, and `handle_add`'s comment at line 301 says the caller still owns the book, so only the caller releases it, exactly once | high (not executed) | `AddOwnership.GrowthFailureReleasesTwice` | `AddOwnership.IntendedReleasesOnce` |

`PointerLibrary.AddBook` follows the code as written: on a growth failure its `released` output is true, as `AddOwnership.AddBookResult` states. `AddOwnership.AddBookResultIntended` is the corrected contract.

=== FILE: book.dfy ===
/** The `Book` value record of the managers: a title and an author. */
module Books {

  datatype Book = Book(title: string, author: string)

  /** The default constructor: both fields empty. */
  function DefaultBook(): (b: Book)
    ensures b.title == [] && b.author == []
  {
    Book("", "")
  }

  /** The two-argument constructor keeps both strings as given. */
  function NewBook(title: string, author: string): (b: Book)
    ensures b.title == title && b.author == author
  {
    Book(title, author)
  }

  /** `setTitle`: the title is replaced, the author is kept. */
  function SetTitle(b: Book, title: string): (r: Book)
    ensures r.title == title
    ensures r.author == b.author
  {
    b.(title := title)
  }

  /** `setAuthor`: the author is replaced, the title is kept. */
  function SetAuthor(b: Book, author: string): (r: Book)
    ensures r.author == author
    ensures r.title == b.title
  {
    b.(author := author)
  }

  /**
    The match used by `RemoveBook` and `ReturnBook`: equal title and equal
    author. The record has no other field, so this is value equality.
   */
  predicate SameTitleAndAuthor(a: Book, b: Book)
  {
    a.title == b.title && a.author == b.author
  }

  /** What the erase-remove idiom keeps when removing `book`: every other title or author. */
  function Survives(book: Book): Book -> bool
  {
    b => !SameTitleAndAuthor(b, book)
  }

  lemma SameTitleAndAuthorIsEquality(a: Book, b: Book)
    ensures SameTitleAndAuthor(a, b) <==> a == b
  {
  }

  /** Setting both fields of any record yields the record that supplied them. */
  lemma OverwriteBothFields(b: Book, u: Book)
    ensures SetAuthor(SetTitle(b, u.title), u.author) == u
  {
  }
}

=== FILE: book_manager.dfy ===
/**
  `BookManager`: the catalogue, a vector of `Book` values. Removal matches on
  title and author; update and find match on the title alone.
 */
module BookManager {
  import opened Wrappers
  import opened Books
  import Seqs

  datatype BookManager = BookManager(books: seq<Book>)

  /** The default constructor: an empty catalogue. */
  function EmptyCatalogue(): (bm: BookManager)
    ensures |bm.books| == 0
  {
    BookManager([])
  }

  /** The vector constructor keeps the given books in the given order. */
  function FromBooks(books: seq<Book>): (bm: BookManager)
    ensures |bm.books| == |books|
    ensures forall i :: 0 <= i < |books| ==> bm.books[i] == books[i]
  {
    BookManager(books)
  }

  /** `AddBook`: `push_back`. */
  function AddBook(bm: BookManager, book: Book): (r: BookManager)
    ensures |r.books| == |bm.books| + 1
    ensures r.books[..|bm.books|] == bm.books
    ensures r.books[|bm.books|] == book
  {
    BookManager(bm.books + [book])
  }

  /** `RemoveBook`: erase every book with the same title and author. */
  function RemoveBook(bm: BookManager, book: Book): (r: BookManager)
    ensures forall b :: b in r.books <==> b in bm.books && !SameTitleAndAuthor(b, book)
    ensures forall b :: multiset(r.books)[b] == if SameTitleAndAuthor(b, book) then 0 else multiset(bm.books)[b]
    ensures (forall i :: 0 <= i < |bm.books| ==> !SameTitleAndAuthor(bm.books[i], book)) ==> r == bm
  {
    var r := BookManager(Seqs.Filter(bm.books, Survives(book)));
    forall b ensures multiset(r.books)[b] == if SameTitleAndAuthor(b, book) then 0 else multiset(bm.books)[b] {
      Seqs.FilterCount(bm.books, Survives(book), b);
    }
    r
  }

  /** Removal keeps the surviving books in their relative order. */
  lemma RemoveBookKeepsOrder(front: seq<Book>, back: seq<Book>, book: Book)
    ensures RemoveBook(BookManager(front + back), book).books
         == RemoveBook(BookManager(front), book).books + RemoveBook(BookManager(back), book).books
  {
    Seqs.FilterConcat(front, back, Survives(book));
  }

  /** Removing the same book twice is the same as removing it once. */
  lemma RemoveBookIdempotent(bm: BookManager, book: Book)
    ensures RemoveBook(RemoveBook(bm, book), book) == RemoveBook(bm, book)
  {
    Seqs.FilterIdempotent(bm.books, Survives(book));
  }

  /** `FindBook`: the position of the first book with the given title. */
  function FindBook(bm: BookManager, title: string): (r: Option<nat>)
    ensures r.Some? ==> r.value < |bm.books| && bm.books[r.value].title == title
    ensures r.Some? ==> forall j :: 0 <= j < r.value ==> bm.books[j].title != title
    ensures r.None? <==> forall j :: 0 <= j < |bm.books| ==> bm.books[j].title != title
  {
    Seqs.FirstIndex(bm.books, (b: Book) => b.title == title)
  }

  /**
    `UpdateBook`: the first book titled `originalTitle` takes the title and
    author of `updated`; nothing else changes, and nothing at all when no
    title matches.
   */
  function UpdateBook(bm: BookManager, originalTitle: string, updated: Book): (r: BookManager)
    ensures |r.books| == |bm.books|
    ensures FindBook(bm, originalTitle).None? ==> r == bm
    ensures FindBook(bm, originalTitle).Some? ==>
      var i := FindBook(bm, originalTitle).value;
      && r.books[i].title == updated.title
      && r.books[i].author == updated.author
      && forall j :: 0 <= j < |bm.books| && j != i ==> r.books[j] == bm.books[j]
  {
    match FindBook(bm, originalTitle)
    case None => bm
    case Some(i) =>
      BookManager(bm.books[i := SetAuthor(SetTitle(bm.books[i], updated.title), updated.author)])
  }

  /** A book just added can be found by its title, at or before the end. */
  lemma FindAfterAdd(bm: BookManager, book: Book)
    ensures FindBook(AddBook(bm, book), book.title).Some?
    ensures FindBook(AddBook(bm, book), book.title).value <= |bm.books|
  {
    var r := AddBook(bm, book);
    assert r.books[|bm.books|].title == book.title;
  }
}

=== FILE: borrow_service.dfy ===
/**
  `BorrowService`: the ledger from member to the ordered list of books that
  member holds. The underlying hash map compares members with `operator==`
  and hashes them by id, so an entry is identified by the member id alone.
 */
module BorrowService {
  import opened Books
  import opened Members
  import Seqs

  datatype BorrowService = BorrowService(rented: map<string, seq<Book>>)

  /** The default constructor: no entries. */
  function EmptyLedger(): (bs: BorrowService)
    ensures forall id :: id !in bs.rented
  {
    BorrowService(map[])
  }

  /** `GetRentedBooks`: a copy of the member's list, or empty when there is no entry. */
  function GetRentedBooks(bs: BorrowService, member: Member): (r: seq<Book>)
    ensures member.memberId in bs.rented ==> r == bs.rented[member.memberId]
    ensures member.memberId !in bs.rented ==> r == []
  {
    if member.memberId in bs.rented then bs.rented[member.memberId] else []
  }

  /** `ViewRentedBooks`: the same lookup as `GetRentedBooks`. */
  function ViewRentedBooks(bs: BorrowService, member: Member): (r: seq<Book>)
    ensures r == GetRentedBooks(bs, member)
  {
    if member.memberId in bs.rented then bs.rented[member.memberId] else []
  }

  /**
    `BorrowBook`: `rentedBooks[member].push_back(book)`, which first creates an
    empty entry when the member has none. Other entries are untouched.
   */
  function BorrowBook(bs: BorrowService, member: Member, book: Book): (r: BorrowService)
    ensures r.rented.Keys == bs.rented.Keys + {member.memberId}
    ensures GetRentedBooks(r, member) == GetRentedBooks(bs, member) + [book]
    ensures forall id :: id in bs.rented && id != member.memberId ==> r.rented[id] == bs.rented[id]
  {
    var list := if member.memberId in bs.rented then bs.rented[member.memberId] else [];
    BorrowService(bs.rented[member.memberId := list + [book]])
  }

  /**
    `ReturnBook`: when the member has an entry, erase every book in it with
    the same title and author; the entry stays even if it becomes empty.
    Without an entry nothing changes.
   */
  function ReturnBook(bs: BorrowService, member: Member, book: Book): (r: BorrowService)
    ensures r.rented.Keys == bs.rented.Keys
    ensures member.memberId !in bs.rented ==> r == bs
    ensures forall b :: b in GetRentedBooks(r, member) <==>
                        b in GetRentedBooks(bs, member) && !SameTitleAndAuthor(b, book)
    ensures forall b :: multiset(GetRentedBooks(r, member))[b] ==
                        if SameTitleAndAuthor(b, book) then 0 else multiset(GetRentedBooks(bs, member))[b]
    ensures forall id :: id in bs.rented && id != member.memberId ==> r.rented[id] == bs.rented[id]
  {
    if member.memberId in bs.rented then
      var list := bs.rented[member.memberId];
      forall b ensures multiset(Seqs.Filter(list, Survives(book)))[b] ==
                       if SameTitleAndAuthor(b, book) then 0 else multiset(list)[b] {
        Seqs.FilterCount(list, Survives(book), b);
      }
      BorrowService(bs.rented[member.memberId := Seqs.Filter(bs.rented[member.memberId], Survives(book))])
    else
      bs
  }

  /**
    Returning keeps the member's remaining books in their borrow order:
    returning from a list `front + back` leaves the survivors of `front`
    followed by the survivors of `back`.
   */
  lemma ReturnBookKeepsOrder(bs: BorrowService, member: Member, front: seq<Book>, back: seq<Book>, book: Book)
    requires GetRentedBooks(bs, member) == front + back
    ensures GetRentedBooks(ReturnBook(bs, member, book), member)
         == Seqs.Filter(front, Survives(book)) + Seqs.Filter(back, Survives(book))
  {
    Seqs.FilterConcat(front, back, Survives(book));
    if member.memberId !in bs.rented {
      assert front + back == [];
      assert front == [] && back == [];
    }
  }

  /** `ClearRentedBooks`: erase the member's entry; other entries are untouched. */
  function ClearRentedBooks(bs: BorrowService, member: Member): (r: BorrowService)
    ensures r.rented.Keys == bs.rented.Keys - {member.memberId}
    ensures GetRentedBooks(r, member) == []
    ensures forall id :: id in r.rented ==> r.rented[id] == bs.rented[id]
  {
    BorrowService(bs.rented - {member.memberId})
  }

  /** Members that share an id share one entry, whatever their names. */
  lemma SameIdSharesEntry(bs: BorrowService, m1: Member, m2: Member, book: Book)
    requires SameMember(m1, m2)
    ensures GetRentedBooks(bs, m1) == GetRentedBooks(bs, m2)
    ensures GetRentedBooks(BorrowBook(bs, m1, book), m2) == GetRentedBooks(bs, m2) + [book]
  {
  }

  /**
    Borrowing a book and returning it restores the member's list exactly
    when the list held no book with that title and author beforehand.
   */
  lemma {:induction false} BorrowThenReturn(bs: BorrowService, member: Member, book: Book)
    ensures GetRentedBooks(ReturnBook(BorrowBook(bs, member, book), member, book), member)
            == GetRentedBooks(bs, member)
        <==> forall b :: b in GetRentedBooks(bs, member) ==> !SameTitleAndAuthor(b, book)
  {
    var before := GetRentedBooks(bs, member);
    var keep := Survives(book);
    var after := GetRentedBooks(ReturnBook(BorrowBook(bs, member, book), member, book), member);
    assert after == Seqs.Filter(before + [book], keep);
    Seqs.FilterConcat(before, [book], keep);
    assert Seqs.Filter([book], keep) == [];
    if forall b :: b in before ==> !SameTitleAndAuthor(b, book) {
      assert forall i :: 0 <= i < |before| ==> keep(before[i]) by {
        forall i | 0 <= i < |before| ensures keep(before[i]) {
          assert before[i] in before;
        }
      }
    } else {
      var b :| b in before && SameTitleAndAuthor(b, book);
      assert b !in after;
    }
  }
}

=== FILE: cstrings.dfy ===
/**
  NUL-terminated character strings of the pointer exercise. A `CStr` is a
  null pointer or a pointer to a buffer; its text is the buffer up to the
  first NUL.
 */
module CStrings {

  const NUL: char := '\0'

  datatype CStr = Null | Ptr(buf: seq<char>)

  /** A null pointer, or a buffer that holds a terminating NUL. */
  predicate WellFormed(c: CStr)
  {
    c.Null? || NUL in c.buf
  }

  /** `std::strlen`: the position of the first NUL. */
  function Strlen(buf: seq<char>): (n: nat)
    requires NUL in buf
    ensures n < |buf| && buf[n] == NUL
    ensures forall i :: 0 <= i < n ==> buf[i] != NUL
  {
    if buf[0] == NUL then 0 else 1 + Strlen(buf[1..])
  }

  /** The characters before the terminator. */
  function Text(c: CStr): (t: string)
    requires WellFormed(c) && c.Ptr?
    ensures NUL !in t
  {
    c.buf[..Strlen(c.buf)]
  }

  /** What `cstr_equal` decides: both null, or both non-null with the same text. */
  predicate SameCStr(a: CStr, b: CStr)
    requires WellFormed(a) && WellFormed(b)
  {
    (a.Null? && b.Null?) || (a.Ptr? && b.Ptr? && Text(a) == Text(b))
  }

  lemma SameCStrSymmetric(a: CStr, b: CStr)
    requires WellFormed(a) && WellFormed(b)
    ensures SameCStr(a, b) <==> SameCStr(b, a)
  {
  }

  /**
    `copy_cstr`: null for a null source; otherwise a fresh buffer of
    `strlen(src) + 1` characters holding the text and a NUL, or null when
    that allocation fails.
   */
  method CopyCStr(src: CStr, allocOk: bool) returns (dst: CStr)
    requires WellFormed(src)
    ensures WellFormed(dst)
    ensures src.Null? || !allocOk ==> dst.Null?
    ensures src.Ptr? && allocOk ==>
      && dst.Ptr?
      && |dst.buf| == |Text(src)| + 1
      && (forall i :: 0 <= i < |Text(src)| ==> dst.buf[i] == Text(src)[i])
      && dst.buf[|Text(src)|] == NUL
    ensures src.Ptr? && allocOk ==> SameCStr(dst, src)
  {
    if src.Null? {
      return Null;
    }
    var n := Strlen(src.buf);
    if !allocOk {
      return Null;
    }
    var a := new char[n + 1];
    for i := 0 to n
      invariant a[..i] == src.buf[..i]
    {
      a[i] := src.buf[i];
    }
    a[n] := NUL;
    dst := Ptr(a[..]);
    assert dst.buf[..n] == src.buf[..n];
  }

  /**
    `cstr_equal`: walk both strings while neither has reached its NUL,
    failing on the first differing character; then both must end together.
   */
  method CStrEqual(a: CStr, b: CStr) returns (eq: bool)
    requires WellFormed(a) && WellFormed(b)
    ensures eq <==> SameCStr(a, b)
  {
    if a == b {
      return true;
    }
    if a.Null? || b.Null? {
      return false;
    }
    var i := 0;
    while a.buf[i] != NUL && b.buf[i] != NUL
      invariant i <= Strlen(a.buf) && i <= Strlen(b.buf)
      invariant a.buf[..i] == b.buf[..i]
      decreases Strlen(a.buf) - i
    {
      if a.buf[i] != b.buf[i] {
        assert Text(a)[i] != Text(b)[i];
        return false;
      }
      i := i + 1;
    }
    eq := a.buf[i] == b.buf[i];
    if !eq {
      assert |Text(a)| != |Text(b)|;
    }
  }
}

=== FILE: library_manager.dfy ===
/**
  `LibraryManager`: the facade over the catalogue, the member registry and
  the borrow ledger. Its one cross-component rule: removing a member also
  clears that member's ledger entry.
 */
module LibraryManager {
  import opened Books
  import opened Members
  import BookManager
  import MemberManager
  import BorrowService
  import Seqs
  import Wrappers

  datatype LibraryManager = LibraryManager(
    bookManager: BookManager.BookManager,
    memberManager: MemberManager.MemberManager,
    borrowService: BorrowService.BorrowService)

  /** The two-vector constructor: collections in the given order, nothing borrowed. */
  function Create(books: seq<Book>, members: seq<Member>): (lm: LibraryManager)
    ensures lm.bookManager.books == books
    ensures lm.memberManager.members == members
    ensures lm.borrowService.rented == map[]
    ensures forall m :: BorrowService.GetRentedBooks(lm.borrowService, m) == []
  {
    LibraryManager(
      BookManager.FromBooks(books),
      MemberManager.FromMembers(members),
      BorrowService.EmptyLedger())
  }

  /**
    `RemoveMemberWithBooks`: remove every member with the given member's id,
    then clear that id's ledger entry whether or not a member was found.
    The catalogue and every other ledger entry are untouched.
   */
  function RemoveMemberWithBooks(lm: LibraryManager, member: Member): (r: LibraryManager)
    ensures MemberManager.FindMember(r.memberManager, member.memberId).None?
    ensures member.memberId !in r.borrowService.rented
    ensures BorrowService.GetRentedBooks(r.borrowService, member) == []
    ensures forall m :: m in r.memberManager.members <==>
                        m in lm.memberManager.members && !SameMember(m, member)
    ensures forall m :: multiset(r.memberManager.members)[m] ==
                        if SameMember(m, member) then 0 else multiset(lm.memberManager.members)[m]
    ensures r.memberManager == MemberManager.RemoveMember(lm.memberManager, member.memberId)
    ensures r.bookManager == lm.bookManager
    ensures r.borrowService.rented.Keys == lm.borrowService.rented.Keys - {member.memberId}
    ensures forall id :: id in r.borrowService.rented ==>
                         r.borrowService.rented[id] == lm.borrowService.rented[id]
  {
    var members := MemberManager.RemoveMember(lm.memberManager, member.memberId);
    MemberManager.RemoveMemberThenFind(lm.memberManager, member.memberId);
    LibraryManager(lm.bookManager, members, BorrowService.ClearRentedBooks(lm.borrowService, member))
  }

  /** Removing the same member twice is the same as removing them once. */
  lemma RemoveMemberWithBooksIdempotent(lm: LibraryManager, member: Member)
    ensures RemoveMemberWithBooks(RemoveMemberWithBooks(lm, member), member)
         == RemoveMemberWithBooks(lm, member)
  {
    MemberManager.RemoveMemberThenFind(lm.memberManager, member.memberId);
  }

  /** Every ledger entry belongs to a registered member. */
  ghost predicate LedgerKeysAreMembers(lm: LibraryManager)
  {
    forall id :: id in lm.borrowService.rented ==>
      exists m :: m in lm.memberManager.members && m.memberId == id
  }

  /** Member removal keeps every ledger entry attached to a registered member. */
  lemma RemovalKeepsLedgerAttached(lm: LibraryManager, member: Member)
    requires LedgerKeysAreMembers(lm)
    ensures LedgerKeysAreMembers(RemoveMemberWithBooks(lm, member))
  {
    var r := RemoveMemberWithBooks(lm, member);
    forall id | id in r.borrowService.rented
      ensures exists m :: m in r.memberManager.members && m.memberId == id
    {
      var m :| m in lm.memberManager.members && m.memberId == id;
      assert m in r.memberManager.members;
    }
  }

  /**
    The catalogue scenario: add "Foundation", find it, remove "Dune"; register
    Alice as M1, let her borrow "1984", then remove her with her books.
   */
  lemma CatalogueScenario()
    ensures
      var dune := Book("Dune", "Herbert");
      var orwell := Book("1984", "Orwell");
      var foundation := Book("Foundation", "Asimov");
      var alice := Member("Alice", "M1");
      var lm0 := Create([dune, orwell], []);
      var books1 := BookManager.AddBook(lm0.bookManager, foundation);
      var books2 := BookManager.RemoveBook(books1, dune);
      var members := MemberManager.RegisterMember(lm0.memberManager, alice);
      var ledger := BorrowService.BorrowBook(lm0.borrowService, alice, orwell);
      var lm1 := LibraryManager(books2, members, ledger);
      var lm2 := RemoveMemberWithBooks(lm1, alice);
      && |books1.books| == 3
      && BookManager.FindBook(books1, "Foundation") == Wrappers.Some(2)
      && books2.books == [orwell, foundation]
      && BorrowService.GetRentedBooks(lm1.borrowService, alice) == [orwell]
      && MemberManager.FindMember(lm2.memberManager, "M1").None?
      && BorrowService.ViewRentedBooks(lm2.borrowService, alice) == []
  {
    var dune := Book("Dune", "Herbert");
    var orwell := Book("1984", "Orwell");
    var foundation := Book("Foundation", "Asimov");
    var alice := Member("Alice", "M1");
    var lm0 := Create([dune, orwell], []);
    var books1 := BookManager.AddBook(lm0.bookManager, foundation);
    assert books1.books == [dune, orwell, foundation];
    assert dune.title[0] != orwell.title[0] && dune.title[0] != foundation.title[0];
    assert orwell.title[0] != foundation.title[0];
    var keep := Survives(dune);
    assert !keep(dune) && keep(orwell) && keep(foundation);
    assert books1.books[1..] == [orwell, foundation];
    assert Seqs.Filter([foundation], keep) == [foundation];
    assert Seqs.Filter([orwell, foundation], keep) == [orwell, foundation];
    assert Seqs.Filter(books1.books, keep) == [orwell, foundation];
    var find := (b: Book) => b.title == "Foundation";
    assert !find(dune) && !find(orwell) && find(foundation);
    assert Seqs.FirstIndex(books1.books, find) == Wrappers.Some(2);
  }
}

=== FILE: member.dfy ===
/**
  The `Member` value record: a display name and a member id. Identity
  (equality and hashing) is the member id alone.
 */
module Members {

  datatype Member = Member(name: string, memberId: string)

  /** The default constructor: both fields empty. */
  function DefaultMember(): (m: Member)
    ensures m.name == [] && m.memberId == []
  {
    Member("", "")
  }

  /** The two-argument constructor keeps both strings as given. */
  function NewMember(name: string, memberId: string): (m: Member)
    ensures m.name == name && m.memberId == memberId
  {
    Member(name, memberId)
  }

  /** `setName`: only the name changes. */
  function SetName(m: Member, name: string): (r: Member)
    ensures r.name == name
    ensures r.memberId == m.memberId
  {
    m.(name := name)
  }

  /** `setMemberId`: only the id changes. */
  function SetMemberId(m: Member, memberId: string): (r: Member)
    ensures r.memberId == memberId
    ensures r.name == m.name
  {
    m.(memberId := memberId)
  }

  /** `operator==`: members are the same member when their ids agree. */
  predicate SameMember(a: Member, b: Member)
  {
    a.memberId == b.memberId
  }

  /**
    `std::hash<Member>`: the string hash applied to the member id. The
    string hash itself is library code and is a parameter here.
   */
  function Hash(m: Member, stringHash: string -> nat): nat
  {
    stringHash(m.memberId)
  }

  /** Names play no part in identity. */
  lemma SameMemberIgnoresName(a: Member, b: Member, name: string)
    ensures SameMember(a, SetName(b, name)) <==> SameMember(a, b)
    ensures SameMember(a, Member(name, a.memberId))
  {
  }

  /** `operator==` is an equivalence relation. */
  lemma SameMemberIsEquivalence(a: Member, b: Member, c: Member)
    ensures SameMember(a, a)
    ensures SameMember(a, b) <==> SameMember(b, a)
    ensures SameMember(a, b) && SameMember(b, c) ==> SameMember(a, c)
  {
  }

  /** Equal members hash equally, whatever the string hash is. */
  lemma EqualMembersHashEqually(a: Member, b: Member, stringHash: string -> nat)
    requires SameMember(a, b)
    ensures Hash(a, stringHash) == Hash(b, stringHash)
  {
  }
}

=== FILE: member_manager.dfy ===
/** `MemberManager`: the member registry, a vector of `Member` values keyed by member id. */
module MemberManager {
  import opened Wrappers
  import opened Members
  import Seqs

  datatype MemberManager = MemberManager(members: seq<Member>)

  /** The default constructor: an empty registry. */
  function EmptyRegistry(): (mm: MemberManager)
    ensures |mm.members| == 0
  {
    MemberManager([])
  }

  /** The vector constructor keeps the given members in the given order. */
  function FromMembers(members: seq<Member>): (mm: MemberManager)
    ensures |mm.members| == |members|
    ensures forall i :: 0 <= i < |members| ==> mm.members[i] == members[i]
  {
    MemberManager(members)
  }

  /** `RegisterMember`: `push_back`. */
  function RegisterMember(mm: MemberManager, member: Member): (r: MemberManager)
    ensures |r.members| == |mm.members| + 1
    ensures r.members[..|mm.members|] == mm.members
    ensures r.members[|mm.members|] == member
  {
    MemberManager(mm.members + [member])
  }

  /** The predicate `RemoveMember` keeps: a different member id. */
  function HasOtherId(memberId: string): Member -> bool
  {
    (m: Member) => m.memberId != memberId
  }

  /** `RemoveMember`: erase every member with the given id. */
  function RemoveMember(mm: MemberManager, memberId: string): (r: MemberManager)
    ensures forall m :: m in r.members <==> m in mm.members && m.memberId != memberId
    ensures forall m :: multiset(r.members)[m] == if m.memberId == memberId then 0 else multiset(mm.members)[m]
    ensures (forall i :: 0 <= i < |mm.members| ==> mm.members[i].memberId != memberId) ==> r == mm
  {
    var r := MemberManager(Seqs.Filter(mm.members, HasOtherId(memberId)));
    forall m ensures multiset(r.members)[m] == if m.memberId == memberId then 0 else multiset(mm.members)[m] {
      Seqs.FilterCount(mm.members, HasOtherId(memberId), m);
    }
    r
  }

  /** Removal keeps the surviving members in their relative order. */
  lemma RemoveMemberKeepsOrder(front: seq<Member>, back: seq<Member>, memberId: string)
    ensures RemoveMember(MemberManager(front + back), memberId).members
         == RemoveMember(MemberManager(front), memberId).members + RemoveMember(MemberManager(back), memberId).members
  {
    Seqs.FilterConcat(front, back, HasOtherId(memberId));
  }

  /** `FindMember`: the position of the first member with the given id. */
  function FindMember(mm: MemberManager, memberId: string): (r: Option<nat>)
    ensures r.Some? ==> r.value < |mm.members| && mm.members[r.value].memberId == memberId
    ensures r.Some? ==> forall j :: 0 <= j < r.value ==> mm.members[j].memberId != memberId
    ensures r.None? <==> forall j :: 0 <= j < |mm.members| ==> mm.members[j].memberId != memberId
  {
    Seqs.FirstIndex(mm.members, (m: Member) => m.memberId == memberId)
  }

  /** After removal the id is not found, and removing it again changes nothing. */
  lemma RemoveMemberThenFind(mm: MemberManager, memberId: string)
    ensures FindMember(RemoveMember(mm, memberId), memberId).None?
    ensures RemoveMember(RemoveMember(mm, memberId), memberId) == RemoveMember(mm, memberId)
  {
    var r := RemoveMember(mm, memberId);
    assert forall j :: 0 <= j < |r.members| ==> r.members[j] in r.members;
  }

  /**
    `UpdateMember`: the first member with id `memberId` takes the name and id
    of `updated`; nothing else changes, and nothing at all when no id matches.
   */
  function UpdateMember(mm: MemberManager, memberId: string, updated: Member): (r: MemberManager)
    ensures |r.members| == |mm.members|
    ensures FindMember(mm, memberId).None? ==> r == mm
    ensures FindMember(mm, memberId).Some? ==>
      var i := FindMember(mm, memberId).value;
      && r.members[i].name == updated.name
      && r.members[i].memberId == updated.memberId
      && forall j :: 0 <= j < |mm.members| && j != i ==> r.members[j] == mm.members[j]
  {
    match FindMember(mm, memberId)
    case None => mm
    case Some(i) =>
      MemberManager(mm.members[i := SetMemberId(SetName(mm.members[i], updated.name), updated.memberId)])
  }
}

=== FILE: ownership.dfy ===
/**
  Who releases a book handed to `add_book`. The header comment promises the
  library does not take ownership when the add fails, so the caller must
  release the book; the code instead releases it inside `add_book` on a
  growth failure, and the console caller releases it again.
 */
module AddOwnership {

  datatype AddResult = AddResult(added: bool, releasedByCallee: bool)

  /** `add_book` as written: a rejected non-null book is released on growth failure. */
  function AddBookResult(libPresent: bool, bookPresent: bool, growthOk: bool): (r: AddResult)
    ensures r.added <==> libPresent && bookPresent && growthOk
    ensures r.releasedByCallee <==> libPresent && bookPresent && !growthOk
  {
    if !libPresent || !bookPresent then AddResult(false, false)
    else if !growthOk then AddResult(false, true)
    else AddResult(true, false)
  }

  /** `add_book` as its header comment describes it: never releases what it rejects. */
  function AddBookResultIntended(libPresent: bool, bookPresent: bool, growthOk: bool): (r: AddResult)
    ensures r.added <==> libPresent && bookPresent && growthOk
    ensures !r.releasedByCallee
  {
    AddResult(libPresent && bookPresent && growthOk, false)
  }

  /**
    How many times the add path releases the book: the callee's release,
    plus the console caller's release whenever `add_book` returns false.
   */
  function ReleasesOnAddPath(r: AddResult): (n: nat)
    ensures n <= 2
    ensures !r.added ==> n >= 1
    ensures r.added && !r.releasedByCallee ==> n == 0
    ensures r.releasedByCallee && !r.added ==> n == 2
  {
    (if r.releasedByCallee then 1 else 0) + (if r.added then 0 else 1)
  }

  /** As written, a growth failure releases the same book twice. */
  lemma GrowthFailureReleasesTwice()
    ensures ReleasesOnAddPath(AddBookResult(true, true, false)) == 2
  {
  }

  /**
    With the documented contract, a rejected book is released exactly once
    and an added book is not released on the add path (the library releases
    it later).
   */
  lemma IntendedReleasesOnce(libPresent: bool, growthOk: bool)
    ensures var r := AddBookResultIntended(libPresent, true, growthOk);
            ReleasesOnAddPath(r) == if r.added then 0 else 1
  {
  }
}

=== FILE: pointer_library.dfy ===
/**
  The pointer exercise's `Library`: a growable array of book slots with an
  explicit `count` and `capacity`. Books are values; a slot is `None` where
  the source holds a null pointer.
 */
module PointerLibrary {
  import opened Wrappers
  import opened CStrings
  import AddOwnership

  datatype CBook = CBook(title: CStr, author: CStr, year: int)

  type Slot = Option<CBook>

  predicate WellFormedBook(b: CBook)
  {
    WellFormed(b.title) && WellFormed(b.author)
  }

  /**
    `create_book`: allocate the record, copy title and author (both copies
    are attempted), keep the year; null when any allocation fails or either
    string is null.
   */
  method CreateBook(title: CStr, author: CStr, year: int, bookOk: bool, titleOk: bool, authorOk: bool)
    returns (b: Option<CBook>)
    requires WellFormed(title) && WellFormed(author)
    ensures b.Some? <==> bookOk && titleOk && authorOk && title.Ptr? && author.Ptr?
    ensures b.Some? ==>
      && WellFormedBook(b.value)
      && b.value.title.Ptr? && Text(b.value.title) == Text(title)
      && b.value.author.Ptr? && Text(b.value.author) == Text(author)
      && b.value.year == year
  {
    if !bookOk {
      return None;
    }
    var t := CopyCStr(title, titleOk);
    var a := CopyCStr(author, authorOk);
    if t.Null? || a.Null? {
      return None;
    }
    return Some(CBook(t, a, year));
  }

  class Library {
    var books: array<Slot>
    var count: int
    var capacity: int

    constructor (books: array<Slot>, count: int, capacity: int)
      requires books.Length == capacity && 0 <= count <= capacity
      requires forall i :: 0 <= i < count ==> books[i].Some? && WellFormedBook(books[i].value)
      ensures this.books == books && this.count == count && this.capacity == capacity
      ensures Valid()
    {
      this.books := books;
      this.count := count;
      this.capacity := capacity;
    }

    /** `[0, count)` holds non-null, well-formed books inside an array of `capacity` slots. */
    ghost predicate Valid()
      reads this, books
    {
      && books.Length == capacity
      && 0 <= count <= capacity
      && forall i :: 0 <= i < count ==> books[i].Some? && WellFormedBook(books[i].value)
    }
  }

  /** The capacity `init_library` asks for: the argument if positive, else 4. */
  function InitialCapacity(requested: int): (c: nat)
    ensures c > 0
    ensures requested > 0 ==> c == requested
    ensures requested <= 0 ==> c == 4
  {
    if requested > 0 then requested else 4
  }

  /**
    `init_library`: an empty library whose slots are all null; when the slot
    array cannot be allocated the capacity is 0.
   */
  method InitLibrary(initialCapacity: int, allocOk: bool) returns (lib: Library)
    ensures fresh(lib) && fresh(lib.books)
    ensures lib.Valid()
    ensures lib.count == 0
    ensures lib.capacity == if allocOk then InitialCapacity(initialCapacity) else 0
    ensures forall i :: 0 <= i < lib.books.Length ==> lib.books[i].None?
  {
    var capacity := InitialCapacity(initialCapacity);
    if !allocOk {
      var none := new Slot[0];
      lib := new Library(none, 0, 0);
      return;
    }
    var slots := new Slot[capacity](_ => None);
    lib := new Library(slots, 0, capacity);
  }

  /**
    `destroy_library`: release every book in `[0, count)`, in order, and the
    slot array; afterwards count and capacity are 0. Returns the released
    books.
   */
  method DestroyLibrary(lib: Library?) returns (released: seq<CBook>)
    requires lib != null ==> lib.Valid()
    modifies lib
    ensures lib == null ==> released == []
    ensures lib != null ==>
      && lib.Valid() && fresh(lib.books) && lib.count == 0 && lib.capacity == 0
      && |released| == old(lib.count)
      && forall i :: 0 <= i < |released| ==> old(lib.books[i]) == Some(released[i])
  {
    if lib == null {
      return [];
    }
    released := [];
    for i := 0 to lib.count
      invariant |released| == i
      invariant forall k :: 0 <= k < i ==> lib.books[k] == Some(released[k])
    {
      released := released + [lib.books[i].value];
    }
    lib.books := new Slot[0];
    lib.count := 0;
    lib.capacity := 0;
  }

  /** The capacity `ensure_capacity` grows to: double the old one, or the minimum if larger. */
  function GrownCapacity(capacity: int, minCapacity: int): (c: int)
    ensures c >= 2 * capacity && c >= minCapacity
    ensures c == 2 * capacity || c == minCapacity
  {
    if 2 * capacity >= minCapacity then 2 * capacity else minCapacity
  }

  /**
    `ensure_capacity`: nothing to do when the capacity already suffices;
    otherwise move the slots `[0, count)` into a new array of the grown
    capacity, or fail and change nothing when it cannot be allocated.
   */
  method EnsureCapacity(lib: Library?, minCapacity: int, allocOk: bool) returns (ok: bool)
    requires lib != null ==> lib.Valid()
    modifies lib
    ensures lib == null ==> !ok
    ensures lib != null ==> lib.Valid() && lib.count == old(lib.count)
    ensures lib != null && old(lib.capacity) >= minCapacity ==>
      ok && lib.books == old(lib.books) && lib.capacity == old(lib.capacity)
    ensures lib != null && old(lib.capacity) < minCapacity && !allocOk ==>
      !ok && lib.books == old(lib.books) && lib.capacity == old(lib.capacity)
    ensures lib != null && old(lib.capacity) < minCapacity && allocOk ==>
      && ok && fresh(lib.books)
      && lib.capacity == GrownCapacity(old(lib.capacity), minCapacity)
      && lib.books[..lib.count] == old(lib.books[..lib.count])
    ensures lib != null ==> lib.books[..lib.count] == old(lib.books[..lib.count])
    ensures lib != null ==> (ok <==> lib.capacity >= minCapacity)
  {
    if lib == null {
      return false;
    }
    if lib.capacity >= minCapacity {
      return true;
    }
    var newCapacity := GrownCapacity(lib.capacity, minCapacity);
    if !allocOk {
      return false;
    }
    // The source leaves slots past `count` uninitialised; they are None here.
    var newBooks := new Slot[newCapacity](_ => None);
    for i := 0 to lib.count
      modifies newBooks
      invariant newBooks[..i] == lib.books[..i]
    {
      newBooks[i] := lib.books[i];
    }
    lib.books := newBooks;
    lib.capacity := newCapacity;
    return true;
  }

  /**
    `add_book`: reject a null library or book; make room for one more slot
    (releasing the book when that fails) and store the book at index
    `count`.
   */
  method AddBook(lib: Library?, book: Slot, allocOk: bool) returns (ok: bool, released: bool)
    requires lib != null ==> lib.Valid()
    requires book.Some? ==> WellFormedBook(book.value)
    modifies lib, if lib == null then {} else {lib.books}
    ensures lib != null ==> lib.Valid()
    ensures lib != null ==> lib.books == old(lib.books) || fresh(lib.books)
    ensures lib != null ==>
      lib.capacity == (if book.Some? && old(lib.capacity) <= old(lib.count) && allocOk
                       then GrownCapacity(old(lib.capacity), old(lib.count) + 1)
                       else old(lib.capacity))
    ensures AddOwnership.AddResult(ok, released) == AddOwnership.AddBookResult(
              lib != null, book.Some?, lib != null && (old(lib.capacity) > old(lib.count) || allocOk))
    ensures lib != null && ok ==>
      && lib.count == old(lib.count) + 1
      && lib.books[old(lib.count)] == book
      && lib.books[..old(lib.count)] == old(lib.books[..lib.count])
    ensures lib != null && !ok ==>
      && lib.count == old(lib.count)
      && lib.books[..lib.count] == old(lib.books[..lib.count])
  {
    if lib == null || book.None? {
      return false, false;
    }
    var grown := EnsureCapacity(lib, lib.count + 1, allocOk);
    if !grown {
      // The source destroys the book here although the caller still owns it.
      return false, true;
    }
    lib.books[lib.count] := book;
    lib.count := lib.count + 1;
    return true, false;
  }

  /** The slot holds a book whose title `cstr_equal` matches `title`. */
  ghost predicate TitleMatches(slot: Slot, title: CStr)
  {
    slot.Some? && WellFormedBook(slot.value) && WellFormed(title) && SameCStr(slot.value.title, title)
  }

  /**
    `find_by_title`: the index of the first book in `[0, count)` whose title
    matches, or none for a null library or title or when nothing matches.
   */
  method FindByTitle(lib: Library?, title: CStr) returns (r: Option<nat>)
    requires lib != null ==> lib.Valid()
    requires WellFormed(title)
    ensures lib == null || title.Null? ==> r.None?
    ensures r.Some? ==>
      && lib != null && r.value < lib.count
      && TitleMatches(lib.books[r.value], title)
      && forall j :: 0 <= j < r.value ==> !TitleMatches(lib.books[j], title)
    ensures r.None? && lib != null && title.Ptr? ==>
      forall j :: 0 <= j < lib.count ==> !TitleMatches(lib.books[j], title)
  {
    if lib == null || title.Null? {
      return None;
    }
    for i := 0 to lib.count
      invariant forall j :: 0 <= j < i ==> !TitleMatches(lib.books[j], title)
    {
      var eq := CStrEqual(lib.books[i].value.title, title);
      if eq {
        return Some(i);
      }
    }
    return None;
  }

  /**
    `remove_by_title`: release the first book in `[0, count)` whose title
    matches, shift the later books one slot left, and null the vacated last
    slot. Nothing changes when no title matches.
   */
  method RemoveByTitle(lib: Library?, title: CStr) returns (removed: bool, released: Slot)
    requires lib != null ==> lib.Valid()
    requires WellFormed(title)
    modifies if lib == null then {} else {lib, lib.books}
    ensures lib == null || title.Null? ==> !removed
    ensures !removed ==> released.None?
    ensures lib != null ==> lib.Valid() && lib.books == old(lib.books)
    ensures lib != null && !removed ==>
      && lib.count == old(lib.count)
      && lib.books[..] == old(lib.books[..])
    ensures lib != null && title.Ptr? && !removed ==>
      forall j :: 0 <= j < lib.count ==> !TitleMatches(lib.books[j], title)
    ensures lib != null && removed ==>
      && lib.count == old(lib.count) - 1
      && lib.books[lib.count] == None
      && exists i ::
           && 0 <= i < old(lib.count)
           && TitleMatches(old(lib.books[i]), title)
           && (forall j :: 0 <= j < i ==> !TitleMatches(old(lib.books[j]), title))
           && released == old(lib.books[i])
           && lib.books[..lib.count] == old(lib.books[..i]) + old(lib.books[i + 1..lib.count])
  {
    var found := FindByTitle(lib, title);
    if found.None? {
      return false, None;
    }
    var i := found.value;
    released := lib.books[i];
    ShiftLeft(lib, i);
    removed := true;
  }

  /**
    The compaction step of `remove_by_title`: move the books after slot `i`
    one slot left, decrement `count` and null the vacated last slot.
   */
  method ShiftLeft(lib: Library, i: nat)
    requires lib.Valid() && i < lib.count
    modifies lib, lib.books
    ensures lib.Valid() && lib.books == old(lib.books)
    ensures lib.count == old(lib.count) - 1
    ensures lib.books[lib.count] == None
    ensures lib.books[..lib.count] == old(lib.books[..i]) + old(lib.books[i + 1..lib.count])
  {
    ghost var before := lib.books[..];
    var n := lib.count;
    var j := i;
    while j < n - 1
      modifies lib.books
      invariant i <= j <= n - 1
      invariant forall k :: 0 <= k < i ==> lib.books[k] == before[k]
      invariant forall k :: i <= k < j ==> lib.books[k] == before[k + 1]
      invariant forall k :: j <= k < lib.books.Length ==> lib.books[k] == before[k]
    {
      lib.books[j] := lib.books[j + 1];
      j := j + 1;
    }
    ShiftedSlices(before, lib.books[..], i, n);
    lib.books[n - 1] := None;
    assert lib.books[..n - 1] == before[..i] + before[i + 1..n];
    lib.count := n - 1;
  }

  /** Pointwise facts about a left shift at `i` give the slice equation for `[0, n - 1)`. */
  lemma ShiftedSlices(before: seq<Slot>, after: seq<Slot>, i: nat, n: nat)
    requires i < n <= |before| == |after|
    requires forall k :: 0 <= k < i ==> after[k] == before[k]
    requires forall k :: i <= k < n - 1 ==> after[k] == before[k + 1]
    ensures after[..n - 1] == before[..i] + before[i + 1..n]
  {
  }

  /**
    `swap_books`: exchange the slots at `i` and `j` when both lie in
    `[0, count)`; otherwise do nothing.
   */
  method SwapBooks(lib: Library?, i: int, j: int)
    requires lib != null ==> lib.Valid()
    modifies if lib == null then {} else {lib.books}
    ensures lib != null ==> lib.Valid()
    ensures lib != null && 0 <= i < lib.count && 0 <= j < lib.count ==>
      lib.books[..] == old(lib.books[..])[i := old(lib.books[j])][j := old(lib.books[i])]
    ensures lib != null && !(0 <= i < lib.count && 0 <= j < lib.count) ==>
      lib.books[..] == old(lib.books[..])
  {
    if lib == null {
      return;
    }
    if i < 0 || j < 0 || i >= lib.count || j >= lib.count {
      return;
    }
    var temp := lib.books[i];
    lib.books[i] := lib.books[j];
    lib.books[j] := temp;
  }

  /**
    One session of `menu_loop`: initialise with capacity 2, add two books,
    swap them, fail to add a third because the slot array cannot grow (the
    book is released by `add_book`), remove the first slot's book by title,
    and destroy the library, releasing the book that is left.
   */
  method MenuSession(b1: CBook, b2: CBook, b3: CBook)
    returns (ok1: bool, ok2: bool, ok3: bool, released3: bool, removed: Slot, destroyed: seq<CBook>)
    requires WellFormedBook(b1) && WellFormedBook(b2) && WellFormedBook(b3)
    requires b2.title.Ptr?
    ensures ok1 && ok2 && !ok3 && released3
    ensures removed == Some(b2)
    ensures destroyed == [b1]
  {
    var lib := InitLibrary(2, true);
    var r1, r2;
    ok1, r1 := AddBook(lib, Some(b1), true);
    ok2, r2 := AddBook(lib, Some(b2), true);
    SwapBooks(lib, 0, 1);
    ok3, released3 := AddBook(lib, Some(b3), false);
    assert lib.books[0] == Some(b2) && lib.books[1] == Some(b1);
    assert TitleMatches(lib.books[0], b2.title);
    var found;
    found, removed := RemoveByTitle(lib, b2.title);
    destroyed := DestroyLibrary(lib);
  }
}

=== FILE: seqs.dfy ===
/**
  Sequence algorithms shared by the managers: the erase-remove idiom
  (`std::remove_if` followed by `erase`) and first-match search
  (`std::find_if`).
 */
module Seqs {
  import opened Wrappers

  /** The elements of `s` that `keep` accepts, in their original order. */
  function Filter<T(==,!new)>(s: seq<T>, keep: T -> bool): (r: seq<T>)
    ensures |r| <= |s|
    ensures forall x :: x in r <==> x in s && keep(x)
    ensures (forall i :: 0 <= i < |s| ==> keep(s[i])) ==> r == s
  {
    if s == [] then []
    else if keep(s[0]) then [s[0]] + Filter(s[1..], keep)
    else Filter(s[1..], keep)
  }

  /** Filtering distributes over concatenation: relative order is kept. */
  lemma {:induction false} FilterConcat<T(!new)>(a: seq<T>, b: seq<T>, keep: T -> bool)
    ensures Filter(a + b, keep) == Filter(a, keep) + Filter(b, keep)
  {
    if a == [] {
      assert a + b == b;
    } else {
      assert (a + b)[1..] == a[1..] + b;
      FilterConcat(a[1..], b, keep);
    }
  }

  /** Every kept element survives with its multiplicity; dropped ones vanish. */
  lemma {:induction false} FilterCount<T(!new)>(s: seq<T>, keep: T -> bool, x: T)
    ensures multiset(Filter(s, keep))[x] == if keep(x) then multiset(s)[x] else 0
  {
    if s != [] {
      assert s == [s[0]] + s[1..];
      FilterCount(s[1..], keep, x);
    }
  }

  /** Filtering twice with the same predicate is the same as filtering once. */
  lemma FilterIdempotent<T(!new)>(s: seq<T>, keep: T -> bool)
    ensures Filter(Filter(s, keep), keep) == Filter(s, keep)
  {
    var r := Filter(s, keep);
    assert forall i :: 0 <= i < |r| ==> r[i] in r;
  }

  /** Index of the first element of `s` satisfying `p`, if any. */
  function FirstIndex<T>(s: seq<T>, p: T -> bool): (r: Option<nat>)
    ensures r.Some? ==> r.value < |s| && p(s[r.value])
    ensures r.Some? ==> forall j :: 0 <= j < r.value ==> !p(s[j])
    ensures r.None? <==> forall j :: 0 <= j < |s| ==> !p(s[j])
  {
    if s == [] then None
    else if p(s[0]) then Some(0)
    else match FirstIndex(s[1..], p)
      case None => None
      case Some(i) => Some(i + 1)
  }
}

=== FILE: wrappers.dfy ===
/** Optional values: stand in for a nullable pointer or a not-found result. */
module Wrappers {

  datatype Option<+T> = None | Some(value: T)
}
